=== FILE: README.md ===
# irec core in Dafny

irec is a media-ingestion server. A client opens a WebSocket connection. The server picks a
route and checks a shared key carried in the query string of the handshake request. It reads
the file type (`audio` or `video`) from the same query string. It then writes the payloads
of Binary frames into a file whose name carries the file type and a nanosecond timestamp.

This project models the core of that system and proves properties of the model:

- `FileTypes` (`src/file_ty.rs`): the `FileTy` enum, its token, and the parse back from the token.
- `StrSplit`: the behaviour of Rust's `str::split` iterator that the handshake parsers rely on.
  It yields the text before the leftmost occurrence of the pattern, then continues after that
  occurrence. `Before`/`After` are one step of the iterator, `SecondPiece` is `nth(1)`, and
  `Split`/`Join` are the list view with its round trip.
- `Handshake`: the query parsing that both `manage_accept` functions share.
  - The href is cut at `?`. The query is the text between the first and the second `?`.
  - The query is cut at `,` and only the first two fields are examined.
  - A field with `ft=` sets the file type when its value parses. Otherwise, a field with
    `key=` hands its value to the key callback.
  - `ScanQuery` is that loop, proved against the functions `HasValidFt`, `LastFt`,
    `HasAcceptedKey` and `KeysOffered` on the classified fields.
- `TlsServer` (`src/bin/server/main.rs`): `manage_accept` with the single `/store` route. It
  accepts when a valid file type and an accepted key were both seen.
- `CliServer` (`src/bin/cli-server/main.rs`): `manage_accept` with the `/store-file`,
  `/stream-audio` and `/stream-video` routes. It accepts when the route is known and a key is
  accepted; the file type plays no part. `AcceptedWithoutFt` shows that `/store-file?key=abc`
  is accepted with the file type still `None`. The caller's `ft.unwrap()` for `StoreFile`
  (`src/bin/cli-server/main.rs:90`) therefore panics on that request.
- `ApiV1` (`src/api/v1.rs`): `store_file` names the file and runs `StoreFrames`, a loop over
  the frames the peer sends, writing to a `BufSink` class that stands for the `BufWriter`. It is proved against `Stop`, `Outcome`,
  `Payloads` and `FramesRead`. `file_name` takes the timestamp as a parameter; its decimal
  rendering has a proved parse-back, so file names are injective.

The key callback is a pure `string -> bool` parameter. Each `ManageAccept` also returns
`offered`, the list of arguments the callback was called with, in call order. The caller's
`endpoint` and `ft` slots are passed in and handed back (`endpoint'`, `ft'`).

Two behaviours of the code that the model keeps as written:

- The code matches fields by substring, not by prefix. `xft=audio` sets the file type because
  `split("ft=").nth(1)` finds `ft=` anywhere in the field. The value stops at a second `ft=`.
- Only the Close exit flushes the writer (`src/api/v1.rs:40-46`). On the
  `UnexpectedFrameOpCode`, `LargeAmountOfFrames` and read-failure exits it is not flushed.

## Model

| member | source | states |
|---|---|---|
| FileTypes.AsStr | src/file_ty.rs:10-18 | the token of a file type has five lowercase letters and parses back to the same file type |
| FileTypes.TryFromStr | src/file_ty.rs:20-31 | parsing succeeds exactly for "audio" and "video" (exact, case-sensitive), yields `Audio` exactly for "audio", and otherwise fails with `UnknownFileTyStr` |
| FileTypes.StrRoundTrip | src/file_ty.rs:10-31 | every string that parses is the token of the file type it parses to |
| FileTypes.AsStrInjective | src/file_ty.rs:10-18 | distinct file types have distinct tokens |
| StrSplit.FindSpec | src/bin/server/main.rs:43 | the split iterator cuts at the leftmost occurrence: `Find` returns an occurrence with none before it, and `None` only when there is none |
| StrSplit.Before | src/bin/server/main.rs:44 | one `next()` of the split iterator yields a prefix of the text, and the whole text exactly when the pattern does not occur |
| StrSplit.After | src/bin/server/main.rs:44-45 | the iterator goes on exactly when the pattern occurs, and then the piece yielded, the pattern and the remainder make up the text |
| StrSplit.Split | src/bin/server/main.rs:43-45 | the first piece the iterator yields is the text before the leftmost occurrence |
| StrSplit.SecondPiece | src/bin/server/main.rs:58 | `nth(1)` is present exactly when the pattern occurs in the text |
| StrSplit.SecondPieceOfSplit | src/bin/server/main.rs:58 | `nth(1)` is the second entry of the full split, which exists exactly when the pattern occurs |
| StrSplit.SplitJoin | src/bin/server/main.rs:43 | gluing the pieces back with the pattern gives the original text |
| StrSplit.BeforeFree | src/bin/server/main.rs:44 | the first piece never contains the pattern |
| StrSplit.SplitPiecesFree | src/bin/server/main.rs:43 | no piece contains the pattern |
| StrSplit.CutAt | src/bin/server/main.rs:43-45 | for a pattern whose last character does not occur earlier in it (true of `?`, `,`, `ft=` and `key=`): after a text without the pattern and then the pattern, the iterator yields that text and continues with the rest |
| StrSplit.NoCut | src/bin/server/main.rs:45 | a text without the pattern is yielded whole and the iterator is then exhausted |
| StrSplit.FirstCharAbsent | src/bin/server/main.rs:58 | a text without the pattern's first character does not contain the pattern |
| StrSplit.SecondPieceBetween | src/bin/server/main.rs:58 | for a pattern whose last character does not occur earlier in it (true of `?`, `,`, `ft=` and `key=`): `nth(1)` is exactly the text between the first and second occurrences |
| Handshake.Route | src/bin/server/main.rs:42-48 | `before_question` is a prefix of the href and holds no `?` |
| Handshake.Query | src/bin/server/main.rs:42-48 | `after_question` holds no `?`; it is "" when the href has no `?`, and otherwise it follows the route and the first `?` in the href and runs to the end of the href or to the next `?` |
| Handshake.Examined | src/bin/server/main.rs:57 | at most two fields of the query are examined, and at least one |
| Handshake.ExaminedTakesTwo | src/bin/server/main.rs:57 | the examined fields are the first two pieces of the query's full comma split, or all of them when there are fewer |
| Handshake.ExaminedSteps | src/bin/server/main.rs:57 | the examined fields are the comma iterator's first piece, then its second when the query has a comma |
| Handshake.FtValue | src/bin/server/main.rs:58 | a field has an `ft=` value exactly when it contains `ft=` |
| Handshake.ParsedFt | src/bin/server/main.rs:58-62 | a field sets a file type only when it contains `ft=` and its `ft=` value is that type's token |
| Handshake.KeyValue | src/bin/server/main.rs:63 | a field offers a key exactly when it lacks `ft=` and contains `key=` |
| Handshake.Classify | src/bin/server/main.rs:58-68 | a field never both sets a file type and offers a key; it offers a key iff it lacks `ft=` and has `key=`; it sets a file type iff it has `ft=` and the value parses |
| Handshake.FieldsOfSplit | src/bin/server/main.rs:57-68 | the fields looked at are the first two pieces of the query's full comma split (one when there is no comma), each classified |
| Handshake.ScanField | src/bin/server/main.rs:58-68 | one loop iteration: the parsed file type and the key handed over are the field's classification, and the callback's verdict is reported for that key |
| Handshake.AppendField | src/bin/server/main.rs:57-69 | the effect of examining one more field on `has_ft`, `has_key`, the file type and the keys offered |
| Handshake.LastFtIsLast | src/bin/server/main.rs:58-62 | the file type left in the slot comes from the last field that set one, and is absent exactly when no field set one |
| Handshake.LaterFtWins | src/bin/server/main.rs:57-62 | with two fields that both set a file type, the second one wins |
| Handshake.KeysOfferedSpec | src/bin/server/main.rs:63-67 | the callback is called once per field at most, only with keys the fields carry, and a key is accepted exactly when the callback accepts one of the keys offered |
| Handshake.ScanQuery | src/bin/server/main.rs:57-69 | the loop's `has_ft`, last file type, `has_key` and callback arguments are those of the examined fields, and the callback is called at most twice |
| Handshake.OfferedFromKeyFields | src/bin/server/main.rs:58-67 | every callback argument is the `key=` value of an examined field without `ft=`; an `ft=` field never reaches the callback |
| Handshake.QueryStopsAtSecondMark | src/bin/server/main.rs:42-48 | only the text between the first and the second `?` is the query |
| Handshake.SingleMark | src/bin/server/main.rs:42-48 | an href whose route and query hold no `?` is cut at its `?` |
| Handshake.RouteAndQuery | src/bin/server/main.rs:42-48 | the same, for route and query texts without the `?` character |
| Handshake.ExaminedFirstTwo | src/bin/server/main.rs:57 | fields after the second are never examined |
| Handshake.ClassifyFtField | src/bin/server/main.rs:58-62 | a field that is `ft=` and a token sets the token's file type, if any, and offers no key, when the token does not contain `ft=` |
| Handshake.ClassifyKeyField | src/bin/server/main.rs:63-67 | a field that is `key=` and a key offers that key and sets no file type, when the field does not contain `ft=` |
| Handshake.TwoFields | src/bin/server/main.rs:57-68 | an `ft=` field followed by a `key=` field sets the token's file type and offers the key, when neither the token nor the key holds `,`, the token holds no `ft=`, the key holds no `key=`, and the field `key=` plus the key holds no `ft=` |
| Handshake.TestQuery | src/bin/server/main.rs:170 | the tests' query `ft=audio,key=abc` sets `Audio` and offers "abc" |
| Handshake.TestQueryScan | src/bin/server/main.rs:57-69 | on the tests' query the loop sets `has_ft` and `Audio`, asks the callback once, about "abc", and `has_key` is its verdict |
| TlsServer.ManageAccept | src/bin/server/main.rs:35-72 | a route other than `/store` gives false and changes nothing. Otherwise the endpoint becomes `Store`, the file type becomes the last valid `ft=` value (or stays), and the callback sees the examined keys. The handshake is accepted iff the route is `/store` and both a valid file type and an accepted key were seen |
| TlsServer.StoreExample | src/bin/server/main.rs:141-171 | `/store?ft=audio,key=abc` with a callback accepting exactly "abc" is accepted, with endpoint `Store` and file type `Audio`, and the callback is called once, with "abc" |
| CliServer.ManageAccept | src/bin/cli-server/main.rs:26-62 | `/store-file`, `/stream-audio` and `/stream-video` select `StoreFile`, `StreamAudio` and `StreamVideo`. Any other route gives false and changes nothing. The file type becomes `Some` only from a valid `ft=` value. The handshake is accepted iff the route is known and a key is accepted; the file type does not matter |
| CliServer.StoreFileExample | src/bin/cli-server/main.rs:130-149 | `/store-file?ft=audio,key=abc` with a callback accepting exactly "abc" is accepted, with endpoint `StoreFile` and file type `Some(Audio)` |
| CliServer.KeyOnlyQuery | src/bin/cli-server/main.rs:49-59 | the query `key=abc` is one field that offers "abc" and sets no file type |
| CliServer.AcceptedWithoutFt | src/bin/cli-server/main.rs:26-62 | `/store-file?key=abc` is accepted while the file type stays `None`: acceptance does not imply a file type |
| ApiV1.BufSink.constructor | src/api/v1.rs:35 | a new writer holds no bytes |
| ApiV1.BufSink.WriteAll | src/api/v1.rs:48 | `write_all` appends the payload to the bytes written |
| ApiV1.BufSink.Flush | src/api/v1.rs:41 | `flush` leaves the bytes as they are and marks them flushed |
| ApiV1.StopFrom | src/api/v1.rs:36-47 | the loop leaves at the first read below the ceiling that is not a Binary frame, or at the ceiling |
| ApiV1.FramesRead | src/api/v1.rs:36-37 | a session never reads more than `MAX_FRAMES` (100) frames |
| ApiV1.StoreFile | src/api/v1.rs:21-51 | the file is named `StoredName(ft, nanos)`. The result is `Outcome(frames)`, the number of reads is `FramesRead(frames)`, the writer holds `Payloads(frames, Stop(frames))`, and it is flushed exactly when the result is `Ok` |
| ApiV1.StoreFrames | src/api/v1.rs:36-50 | the frame loop on a fresh writer: the result is `Outcome(frames)`, the number of reads is `FramesRead(frames)`, the writer holds `Payloads(frames, Stop(frames))`, and it is flushed exactly when the result is `Ok` |
| ApiV1.StopIsFirstNonBinary | src/api/v1.rs:36-47 | the exit iteration is the unique one after only Binary frames that is the ceiling or a non-Binary read |
| ApiV1.PayloadsGrow | src/api/v1.rs:36-49 | the writer only grows: its bytes after `i` iterations are a prefix of its bytes after `j >= i` |
| ApiV1.PayloadsOfBinaryFrames | src/api/v1.rs:39-48 | after `k` Binary frames the writer holds their payloads concatenated in order |
| ApiV1.EndsAt | src/api/v1.rs:36-47 | Binary frames below the ceiling and then a non-Binary read: the loop leaves at that read, has read one frame more than the Binary ones, and wrote exactly their payloads |
| ApiV1.SessionStoresPayloads | src/api/v1.rs:36-43 | fewer than 100 Binary frames then Close: `Ok`, the writer holds the Binary payloads in order, the Close payload is not written, and nothing after Close is read |
| ApiV1.CeilingReached | src/api/v1.rs:36-50 | 100 Binary frames: `Err(LargeAmountOfFrames)` after exactly 100 reads, with all 100 payloads written |
| ApiV1.UnexpectedFrameStops | src/api/v1.rs:44-46 | a Continuation, Text, Ping or Pong frame below the ceiling: `Err(UnexpectedFrameOpCode)`. The writer holds only the earlier Binary payloads, not this frame's, and nothing after it is read |
| ApiV1.ReadFailureStops | src/api/v1.rs:37 | a failed read below the ceiling ends the session with the transport error after the earlier Binary payloads were written |
| ApiV1.OnlyBinaryWritten | src/api/v1.rs:38-48 | every read before the exit is a Binary frame, and the session succeeds exactly when the exit read is a Close frame |
| ApiV1.StoreExample | src/bin/cli-server/main.rs:130-160 | one Binary frame "123" and then Close gives `Ok`, and the writer holds the bytes of "123" |
| ApiV1.Decimal | src/api/v1.rs:73-75 | the timestamp is written with at least one character, all of them decimal digits, and without a leading zero |
| ApiV1.DecimalRoundTrip | src/api/v1.rs:73-75 | reading the decimal digits back yields the timestamp |
| ApiV1.FileName | src/api/v1.rs:71-77 | the name is `irec-`, the file type's token, `-` at index 10 and the timestamp's digits; the type parses back from indices 5 to 10, the timestamp from the digits, and the name holds no '.' |
| ApiV1.FileNameInjective | src/api/v1.rs:71-77 | distinct file types or distinct timestamps give distinct file names |
| ApiV1.StoredName | src/api/v1.rs:33 | `with_extension` appends: the stored name's last '.' is the one added after the whole file name, and `webm` follows it |
| ApiV1.StoredNameInjective | src/api/v1.rs:33 | distinct file types or distinct timestamps give distinct stored files |

## Left out

- Process start-up, argument and certificate loading, the `IREC_KEY` environment variable, the TCP listener, TLS, the WebSocket handshake exchange, and the spawned per-connection task (`main` and `serve` in both binaries). These are I/O and concurrency.
- `Uri::new`/`UriParts::from` and the UTF-8 decoding of the request path: the model starts from the href string. A path that is not UTF-8 becomes `""` in the source, and that case is not modelled.
- TlsServer.ManageAccept: the key callback is a stateful `FnMut` in the source, but here it is a pure function. The list of its arguments (`offered`) stands in for its side effects.
- `irec_dir`, `create_dir_all` and `OpenOptions::open` are filesystem calls and are left out. StoreFile starts once the file is open; the error paths of these calls (home directory unknown, I/O failure) are not modelled.
- The file is opened with `create` and `write` and without `truncate` (`src/api/v1.rs:30-34`). The model's writer starts empty, so it does not represent the bytes an older file at the same path keeps beyond those written. Such a file exists only when a name repeats, which the nanosecond timestamp makes unlikely.
- ApiV1.StoreFile: `write_all` and `flush` always succeed in the model, so the source's `Io` error exits from those two calls are not modelled.
- ApiV1.StoreFile: when `BufWriter` spills its buffer to disk is not modelled. `data` is every byte accepted by `write_all`, and `flushed` records whether `flush` was called after the last write.
- The peer's frames are a list. A read past the end of the list is a transport failure (`Wtx`), standing for a dropped connection. Blocking reads and the reuse of `FrameBufferVec` are not modelled.
- `file_name`: the clock is replaced by a `nanos: nat` parameter. The `SystemTimeError` (clock before the epoch) and `Fmt` error exits are left out, and so is the `u128` width of the timestamp.
- `stream_audio` and `stream_video` (`src/api/v1.rs:53-69`) are empty stubs behind a feature flag. The no-op dispatch to them is left out.
- `api::v1::store`, which the TLS server calls, is not part of this model: the modelled `src/api/v1.rs` defines only `store_file`.
- `src/error.rs`: the error variants are modelled without the wrapped library errors they carry.

=== FILE: api_v1.dfy ===
/** The frame-ingestion endpoint of src/api/v1.rs: `store_file` reads WebSocket frames and
    appends the payloads of Binary frames to a buffered file writer until a Close frame, a
    frame of another kind, a read failure or the frame ceiling; `file_name` names the file. */
module ApiV1 {
  import opened Errors
  import opened FileTypes

  /** `MAX_FRAMES` (src/api.rs): the most frames one session reads. */
  const MaxFrames: nat := 100

  /** `CONTAINER_EXTENSION` (src/api.rs): the extension of a stored file. */
  const ContainerExtension: string := "webm"

  newtype byte = b: int | 0 <= b < 256

  /** The WebSocket frame kinds. */
  datatype OpCode = Continuation | Text | Binary | Close | Ping | Pong

  /** What one `ws.read_frame(fb)` yields: a frame, or a transport failure. */
  datatype FrameRead = Frame(op: OpCode, payload: seq<byte>) | ReadFailure

  /** The `i`-th read of a session whose peer sends `frames`; once they run out, the
      connection fails. */
  function FrameAt(frames: seq<FrameRead>, i: nat): FrameRead {
    if i < |frames| then frames[i] else ReadFailure
  }

  predicate IsBinary(r: FrameRead) {
    r.Frame? && r.op == Binary
  }

  /** The buffered writer over the stored file (`BufWriter`). `data` is every byte handed to
      `write_all`, in order; `flushed` says whether `flush` was called after the last write. */
  class BufSink {
    var data: seq<byte>
    var flushed: bool

    constructor ()
      ensures data == [] && !flushed
    {
      data, flushed := [], false;
    }

    method WriteAll(payload: seq<byte>)
      modifies this
      ensures data == old(data) + payload && !flushed
    {
      data, flushed := data + payload, false;
    }

    method Flush()
      modifies this
      ensures data == old(data) && flushed
    {
      flushed := true;
    }
  }

  /** The iteration at which the loop leaves, looking from iteration `i` on: the first
      read below the ceiling that is not a Binary frame, or the ceiling itself. */
  function StopFrom(frames: seq<FrameRead>, i: nat): (k: nat)
    requires i <= MaxFrames
    ensures i <= k <= MaxFrames
    ensures forall j :: i <= j < k ==> IsBinary(FrameAt(frames, j))
    ensures k < MaxFrames ==> !IsBinary(FrameAt(frames, k))
    decreases MaxFrames - i
  {
    if i == MaxFrames then i
    else if IsBinary(FrameAt(frames, i)) then StopFrom(frames, i + 1)
    else i
  }

  /** The iteration at which a session over `frames` leaves the loop. */
  function Stop(frames: seq<FrameRead>): nat {
    StopFrom(frames, 0)
  }

  function PayloadOf(r: FrameRead): seq<byte> {
    if r.Frame? then r.payload else []
  }

  /** The payloads of the first `k` reads, concatenated in order. */
  function Payloads(frames: seq<FrameRead>, k: nat): seq<byte> {
    if k == 0 then [] else Payloads(frames, k - 1) + PayloadOf(FrameAt(frames, k - 1))
  }

  /** What a session over `frames` returns. */
  function Outcome(frames: seq<FrameRead>): Result<()> {
    var k := Stop(frames);
    if k == MaxFrames then Err(LargeAmountOfFrames)
    else match FrameAt(frames, k)
      case ReadFailure => Err(Wtx)
      case Frame(op, _) => if op == Close then Ok(()) else Err(UnexpectedFrameOpCode)
  }

  /** How many times a session over `frames` reads a frame. */
  function FramesRead(frames: seq<FrameRead>): (n: nat)
    ensures n <= MaxFrames
  {
    if Stop(frames) == MaxFrames then MaxFrames else Stop(frames) + 1
  }

  /** `store_file` once the file named `StoredName(ft, nanos)` is open: reads at most
      `MaxFrames` frames, appends each Binary payload to the writer, flushes and succeeds on
      Close, and fails on any other frame kind, on a read failure or at the ceiling. */
  method StoreFile(ft: FileTy, nanos: nat, frames: seq<FrameRead>)
    returns (result: Result<()>, name: string, bw: BufSink, readCount: nat)
    ensures fresh(bw)
    ensures name == StoredName(ft, nanos)
    ensures result == Outcome(frames)
    ensures readCount == FramesRead(frames)
    ensures bw.data == Payloads(frames, Stop(frames))
    ensures bw.flushed <==> result.Ok?
  {
    name := StoredName(ft, nanos);
    result, bw, readCount := StoreFrames(frames);
  }

  /** The frame loop of `store_file`, on a fresh writer over the open file. */
  method StoreFrames(frames: seq<FrameRead>) returns (result: Result<()>, bw: BufSink, readCount: nat)
    ensures fresh(bw)
    ensures result == Outcome(frames)
    ensures readCount == FramesRead(frames)
    ensures bw.data == Payloads(frames, Stop(frames))
    ensures bw.flushed <==> result.Ok?
  {
    bw := new BufSink();
    readCount := 0;
    for i := 0 to MaxFrames
      invariant readCount == i
      invariant forall j :: 0 <= j < i ==> IsBinary(FrameAt(frames, j))
      invariant bw.data == Payloads(frames, i) && !bw.flushed
    {
      var frame := FrameAt(frames, i);
      readCount := readCount + 1;
      match frame {
        case ReadFailure =>
          StopIsFirstNonBinary(frames, i);
          return Err(Wtx), bw, readCount;
        case Frame(op, payload) =>
          match op {
            case Binary =>
            case Close =>
              StopIsFirstNonBinary(frames, i);
              bw.Flush();
              return Ok(()), bw, readCount;
            case Continuation | Text | Ping | Pong =>
              StopIsFirstNonBinary(frames, i);
              return Err(UnexpectedFrameOpCode), bw, readCount;
          }
          bw.WriteAll(payload);
      }
    }
    StopIsFirstNonBinary(frames, MaxFrames);
    result := Err(LargeAmountOfFrames);
  }

  /** The loop leaves at `k` exactly when every read before `k` is a Binary frame and `k` is
      the ceiling or a read that is not. */
  lemma StopIsFirstNonBinary(frames: seq<FrameRead>, k: nat)
    requires k <= MaxFrames
    requires forall j :: 0 <= j < k ==> IsBinary(FrameAt(frames, j))
    requires k < MaxFrames ==> !IsBinary(FrameAt(frames, k))
    ensures Stop(frames) == k
  {
  }

  /** The writer only grows: what it holds after `i` iterations is a prefix of what it holds
      after `j`. */
  lemma {:induction false} PayloadsGrow(frames: seq<FrameRead>, i: nat, j: nat)
    requires i <= j
    ensures Payloads(frames, i) <= Payloads(frames, j)
    decreases j
  {
    if i < j {
      PayloadsGrow(frames, i, j - 1);
    }
  }

  /** The payloads of a list of frames' worth of bytes, concatenated. */
  function Concat(payloads: seq<seq<byte>>): seq<byte> {
    if payloads == [] then [] else Concat(payloads[..|payloads| - 1]) + payloads[|payloads| - 1]
  }

  /** Binary frames carrying `payloads`, in order. */
  function BinaryFrames(payloads: seq<seq<byte>>): seq<FrameRead> {
    seq(|payloads|, i requires 0 <= i < |payloads| => Frame(Binary, payloads[i]))
  }

  /** Before a session's first non-Binary frame, the writer holds the Binary payloads
      received so far. */
  lemma {:induction false} PayloadsOfBinaryFrames(payloads: seq<seq<byte>>, rest: seq<FrameRead>, k: nat)
    requires k <= |payloads|
    ensures Payloads(BinaryFrames(payloads) + rest, k) == Concat(payloads[..k])
  {
    if k > 0 {
      PayloadsOfBinaryFrames(payloads, rest, k - 1);
      assert payloads[..k][..k - 1] == payloads[..k - 1];
    }
  }

  /** The same frame list with something appended: the reads before its end see the same
      frames. */
  lemma PrefixFrames(payloads: seq<seq<byte>>, rest: seq<FrameRead>)
    ensures forall j :: 0 <= j < |payloads| ==>
      FrameAt(BinaryFrames(payloads) + rest, j) == Frame(Binary, payloads[j])
    ensures FrameAt(BinaryFrames(payloads) + rest, |payloads|) == FrameAt(rest, 0)
  {
  }

  /** Binary frames below the ceiling and then a frame `last` that is not Binary: the loop
      leaves at `last`, having read one frame more than there are Binary ones and written
      exactly the Binary payloads. */
  lemma EndsAt(payloads: seq<seq<byte>>, last: FrameRead, after: seq<FrameRead>)
    requires |payloads| < MaxFrames
    requires !IsBinary(last)
    ensures var frames := BinaryFrames(payloads) + [last] + after;
      Stop(frames) == |payloads| && FrameAt(frames, Stop(frames)) == last &&
      Payloads(frames, Stop(frames)) == Concat(payloads) &&
      FramesRead(frames) == |payloads| + 1
  {
    var rest := [last] + after;
    var frames := BinaryFrames(payloads) + rest;
    assert frames == BinaryFrames(payloads) + [last] + after;
    PrefixFrames(payloads, rest);
    StopIsFirstNonBinary(frames, |payloads|);
    PayloadsOfBinaryFrames(payloads, rest, |payloads|);
    assert payloads[..|payloads|] == payloads;
  }

  /** Fewer than `MaxFrames` Binary frames and then a Close frame: the session succeeds,
      the writer holds exactly the Binary payloads in order, the Close payload is not
      written, and nothing after the Close frame is read. */
  lemma SessionStoresPayloads(payloads: seq<seq<byte>>, closing: seq<byte>, after: seq<FrameRead>)
    requires |payloads| < MaxFrames
    ensures var frames := BinaryFrames(payloads) + [Frame(Close, closing)] + after;
      Outcome(frames) == Ok(()) &&
      Payloads(frames, Stop(frames)) == Concat(payloads) &&
      FramesRead(frames) == |payloads| + 1
  {
    EndsAt(payloads, Frame(Close, closing), after);
  }

  /** `MaxFrames` Binary frames: the session fails with `LargeAmountOfFrames` without a
      further read, and the writer holds all of their payloads. */
  lemma CeilingReached(payloads: seq<seq<byte>>, after: seq<FrameRead>)
    requires |payloads| == MaxFrames
    ensures var frames := BinaryFrames(payloads) + after;
      Outcome(frames) == Err(LargeAmountOfFrames) &&
      FramesRead(frames) == MaxFrames &&
      Payloads(frames, Stop(frames)) == Concat(payloads)
  {
    var frames := BinaryFrames(payloads) + after;
    PrefixFrames(payloads, after);
    StopIsFirstNonBinary(frames, MaxFrames);
    PayloadsOfBinaryFrames(payloads, after, MaxFrames);
    assert payloads[..MaxFrames] == payloads;
  }

  /** A Continuation, Text, Ping or Pong frame below the ceiling: the session fails with
      `UnexpectedFrameOpCode`, the writer holds only the Binary payloads before it (not its
      own), and nothing after it is read. */
  lemma UnexpectedFrameStops(payloads: seq<seq<byte>>, op: OpCode, payload: seq<byte>, after: seq<FrameRead>)
    requires |payloads| < MaxFrames
    requires op != Binary && op != Close
    ensures var frames := BinaryFrames(payloads) + [Frame(op, payload)] + after;
      Outcome(frames) == Err(UnexpectedFrameOpCode) &&
      Payloads(frames, Stop(frames)) == Concat(payloads) &&
      FramesRead(frames) == |payloads| + 1
  {
    EndsAt(payloads, Frame(op, payload), after);
  }

  /** A failed read below the ceiling ends the session with the transport's error, after the
      Binary payloads before it were written. */
  lemma ReadFailureStops(payloads: seq<seq<byte>>, after: seq<FrameRead>)
    requires |payloads| < MaxFrames
    ensures var frames := BinaryFrames(payloads) + [ReadFailure] + after;
      Outcome(frames) == Err(Wtx) &&
      Payloads(frames, Stop(frames)) == Concat(payloads) &&
      FramesRead(frames) == |payloads| + 1
  {
    EndsAt(payloads, ReadFailure, after);
  }

  /** Only Binary payloads are ever written: the writer's bytes are those of readCount that all
      were Binary frames, and the session succeeds exactly when the read that ends it is a
      Close frame. */
  lemma OnlyBinaryWritten(frames: seq<FrameRead>)
    ensures forall j :: 0 <= j < Stop(frames) ==> IsBinary(FrameAt(frames, j))
    ensures Outcome(frames).Ok? <==>
      Stop(frames) < MaxFrames && FrameAt(frames, Stop(frames)).Frame? &&
      FrameAt(frames, Stop(frames)).op == Close
  {
  }

  /** The session of the binaries' tests: one Binary frame "123" and a Close frame store
      the bytes of "123" and succeed. */
  method StoreExample(ft: FileTy, nanos: nat) returns (result: Result<()>, stored: seq<byte>)
    ensures result == Ok(()) && stored == [49, 50, 51]
  {
    var content: seq<byte> := [49, 50, 51];
    SessionStoresPayloads([content], [], []);
    assert BinaryFrames([content]) + [Frame(Close, [])] + [] == [Frame(Binary, content), Frame(Close, [])];
    assert Concat([content]) == content;
    var name, bw, readCount;
    result, name, bw, readCount := StoreFile(ft, nanos, [Frame(Binary, content), Frame(Close, [])]);
    stored := bw.data;
  }

  /** The decimal digit of `d`. */
  function Digit(d: nat): char
    requires d < 10
  {
    (('0' as int) + d) as char
  }

  /** `{timestamp}` of an integer: its decimal digits, most significant first, without
      leading zeros. */
  function Decimal(n: nat): (s: string)
    ensures |s| >= 1
    ensures forall i :: 0 <= i < |s| ==> '0' <= s[i] <= '9'
    ensures |s| > 1 ==> s[0] != '0'
    decreases n
  {
    if n < 10 then [Digit(n)] else Decimal(n / 10) + [Digit(n % 10)]
  }

  /** The value of a string of decimal digits. */
  function ParseDecimal(s: string): nat
    requires forall i :: 0 <= i < |s| ==> '0' <= s[i] <= '9'
  {
    if s == [] then 0
    else 10 * ParseDecimal(s[..|s| - 1]) + ((s[|s| - 1] as int) - ('0' as int))
  }

  /** Reading the digits back yields the number. */
  lemma {:induction false} DecimalRoundTrip(n: nat)
    ensures ParseDecimal(Decimal(n)) == n
    decreases n
  {
    if n >= 10 {
      DecimalRoundTrip(n / 10);
      var s := Decimal(n);
      assert s[..|s| - 1] == Decimal(n / 10);
    }
  }

  /** `file_name`: "irec-", the file type's token, "-" and the nanoseconds since the Unix
      epoch in decimal. The token sits at indices 5 to 10 and the digits from index 11 on,
      so both can be read back. */
  function FileName(ft: FileTy, nanos: nat): (name: string)
    ensures |name| >= 12 && name[..5] == "irec-" && name[10] == '-'
    ensures TryFromStr(name[5..10]) == Ok(ft)
    ensures forall i :: 11 <= i < |name| ==> '0' <= name[i] <= '9'
    ensures ParseDecimal(name[11..]) == nanos
    ensures '.' !in name
  {
    NameLayout(AsStr(ft), Decimal(nanos));
    DecimalRoundTrip(nanos);
    "irec-" + AsStr(ft) + "-" + Decimal(nanos)
  }

  /** Where the token and the digits sit in a file name, and that neither brings a '.'. */
  lemma NameLayout(token: string, digits: string)
    requires |token| == 5 && forall i :: 0 <= i < |token| ==> 'a' <= token[i] <= 'z'
    requires |digits| >= 1 && forall i :: 0 <= i < |digits| ==> '0' <= digits[i] <= '9'
    ensures var name := "irec-" + token + "-" + digits;
      && |name| >= 12 && name[..5] == "irec-" && name[5..10] == token && name[10] == '-'
      && name[11..] == digits
      && '.' !in name
  {
  }

  /** Index of the last '.' in `s`, where `Path::extension` and `Path::file_stem` cut a
      file name. */
  function LastDot(s: string): (r: Option<nat>)
    ensures r.Some? ==> r.value < |s| && s[r.value] == '.' && '.' !in s[r.value + 1..]
    ensures r.None? ==> '.' !in s
  {
    if s == [] then None
    else if s[|s| - 1] == '.' then Some(|s| - 1)
    else
      var r := LastDot(s[..|s| - 1]);
      assert s == s[..|s| - 1] + [s[|s| - 1]];
      if r.Some? then assert s[r.value + 1..] == s[..|s| - 1][r.value + 1..] + [s[|s| - 1]]; r
      else r
  }

  /** The path's last component: the file name with the `ContainerExtension` extension.
      Since the file name holds no '.', `with_extension` appends the extension rather than
      replacing part of the name: the last '.' is the one it adds. */
  function StoredName(ft: FileTy, nanos: nat): (name: string)
    ensures LastDot(name) == Some(|FileName(ft, nanos)|)
    ensures name[..|FileName(ft, nanos)|] == FileName(ft, nanos)
    ensures name[|FileName(ft, nanos)| + 1..] == ContainerExtension
  {
    WithExtension(FileName(ft, nanos), ContainerExtension);
    FileName(ft, nanos) + "." + ContainerExtension
  }

  /** Adding an extension to a stem without '.' puts the last '.' right after the stem. */
  lemma WithExtension(stem: string, ext: string)
    requires '.' !in stem && '.' !in ext
    ensures var name := stem + "." + ext;
      && LastDot(name) == Some(|stem|) && name[..|stem|] == stem && name[|stem| + 1..] == ext
  {
  }

  /** Distinct file types or distinct timestamps give distinct file names. */
  lemma FileNameInjective(a: FileTy, t: nat, b: FileTy, u: nat)
    requires FileName(a, t) == FileName(b, u)
    ensures a == b && t == u
  {
  }

  /** Distinct file types or distinct timestamps give distinct stored files. */
  lemma StoredNameInjective(a: FileTy, t: nat, b: FileTy, u: nat)
    requires StoredName(a, t) == StoredName(b, u)
    ensures a == b && t == u
  {
    var x, y := StoredName(a, t), StoredName(b, u);
    assert |FileName(a, t)| == |FileName(b, u)|;
    FileNameInjective(a, t, b, u);
  }
}

=== FILE: cli_server.dfy ===
/** `manage_accept` of the plain-TCP server (src/bin/cli-server/main.rs): three routes, and
    the handshake is accepted when the route is known and some key is accepted. The file
    type is optional here and plays no part in the decision. */
module CliServer {
  import opened Errors
  import opened FileTypes
  import opened StrSplit
  import opened Handshake

  /** The handlers the server dispatches to. */
  datatype Endpoint = StoreFile | StreamAudio | StreamVideo

  const StoreFileRoute: string := "/store-file"
  const StreamAudioRoute: string := "/stream-audio"
  const StreamVideoRoute: string := "/stream-video"

  /** A route the server dispatches on. */
  predicate Recognised(route: string) {
    route == StoreFileRoute || route == StreamAudioRoute || route == StreamVideoRoute
  }

  /** Decides a handshake from the request's href. `endpoint` and `ft` are the caller's
      slots, passed in and handed back (possibly updated) as `endpoint'` and `ft'`; `cb` is
      the key callback, and `offered` lists the arguments it was called with. */
  method ManageAccept(endpoint: Endpoint, ft: Option<FileTy>, href: string, cb: string -> bool)
    returns (accepted: bool, endpoint': Endpoint, ft': Option<FileTy>, offered: seq<string>)
    ensures Route(href) == StoreFileRoute ==> endpoint' == StoreFile
    ensures Route(href) == StreamAudioRoute ==> endpoint' == StreamAudio
    ensures Route(href) == StreamVideoRoute ==> endpoint' == StreamVideo
    ensures !Recognised(Route(href)) ==>
      !accepted && endpoint' == endpoint && ft' == ft && offered == []
    ensures Recognised(Route(href)) ==>
      ft' == (if LastFt(Fields(Query(href))).Some? then LastFt(Fields(Query(href))) else ft) &&
      offered == KeysOffered(Fields(Query(href)))
    ensures accepted <==> Recognised(Route(href)) && HasAcceptedKey(Fields(Query(href)), cb)
  {
    var beforeQuestion := Before(href, QuestionMark);
    var afterQuestion := match After(href, QuestionMark)
      case None => ""
      case Some(rest) => Before(rest, QuestionMark);

    if beforeQuestion == StoreFileRoute {
      endpoint' := StoreFile;
    } else if beforeQuestion == StreamAudioRoute {
      endpoint' := StreamAudio;
    } else if beforeQuestion == StreamVideoRoute {
      endpoint' := StreamVideo;
    } else {
      return false, endpoint, ft, [];
    }

    // The scan also reports `has_ft`, which this server does not use.
    var hasFt, lastFt, hasKey;
    hasFt, lastFt, hasKey, offered := ScanQuery(afterQuestion, cb);
    ft' := if lastFt.Some? then lastFt else ft;
    accepted := hasKey;
  }

  /** The handshake of the binary's test: `/store-file?ft=audio,key=abc` with a key callback that
      accepts exactly "abc" is accepted, selects `StoreFile` and sets the audio type. */
  method StoreFileExample() returns (accepted: bool, endpoint: Endpoint, ft: Option<FileTy>, offered: seq<string>)
    ensures accepted && endpoint == StoreFile && ft == Some(Audio) && offered == ["abc"]
  {
    var query := "ft=audio,key=abc";
    var href := StoreFileRoute + QuestionMark + query;
    assert Route(href) == StoreFileRoute && Query(href) == query by {
      RouteAndQuery(StoreFileRoute, query);
    }
    var cb := (k: string) => k == "abc";
    TestQueryScan(query, cb);
    accepted, endpoint, ft, offered := ManageAccept(StoreFile, None, href, cb);
  }

  /** A query with a key and no file type, `key=abc`, is a single field offering "abc". */
  lemma KeyOnlyQuery(query: string)
    requires query == "key=abc"
    ensures Fields(query) == [Field(None, Some("abc"))]
  {
    assert query == KeyMarker + "abc";
    FirstCharAbsent("abc", KeyMarker);
    FirstCharAbsent(query, FtMarker);
    FirstCharAbsent(query, Comma);
    ClassifyKeyField("abc");
    NoCut(query, Comma);
  }

  /** `/store-file?key=abc` is accepted while the file type stays unset: acceptance does not
      imply a file type, so the caller's `ft.unwrap()` for `StoreFile` can meet `None`. */
  method AcceptedWithoutFt() returns (accepted: bool, endpoint: Endpoint, ft: Option<FileTy>)
    ensures accepted && endpoint == StoreFile && ft == None
  {
    var query := "key=abc";
    var href := StoreFileRoute + QuestionMark + query;
    RouteAndQuery(StoreFileRoute, query);
    KeyOnlyQuery(query);
    var cb := (k: string) => k == "abc";
    AppendField([], Field(None, Some("abc")), cb);
    assert [] + [Field(None, Some("abc"))] == Fields(query);
    var offered;
    accepted, endpoint, ft, offered := ManageAccept(StoreFile, None, href, cb);
  }
}

=== FILE: errors.dfy ===
/** The crate's error type (src/error.rs) and the result and option shapes the model uses. */
module Errors {

  /** The crate's `Error`. The four external variants wrap foreign error values in the source;
      here they are opaque tags. */
  datatype Error =
    // External
    | Fmt
    | Io
    | SystemTimeError
    | Wtx
    // Internal
    | LargeAmountOfFrames
    | UnexpectedFrameOpCode
    | UnknownFileTyStr
    | UnknownHomeDirectory

  /** `irec::Result<T>`, a shortcut for `std::result::Result<T, irec::Error>`. */
  datatype Result<+T> = Ok(value: T) | Err(error: Error) {
    function ToOption(): Option<T> {
      match this
      case Ok(v) => Some(v)
      case Err(_) => None
    }
  }

  datatype Option<+T> = None | Some(value: T) {
    function GetOr(default: T): T {
      match this
      case Some(v) => v
      case None => default
    }
  }
}

=== FILE: file_ty.dfy ===
/** The file-type token codec of src/file_ty.rs. */
module FileTypes {
  import opened Errors

  /** Kind of media a stored file holds. */
  datatype FileTy = Audio | Video

  /** `From<FileTy> for &str`: the lowercase token of a file type. */
  function AsStr(ft: FileTy): (token: string)
    ensures |token| == 5
    ensures forall i :: 0 <= i < |token| ==> 'a' <= token[i] <= 'z'
    ensures TryFromStr(token) == Ok(ft)
  {
    match ft
    case Audio => "audio"
    case Video => "video"
  }

  /** `TryFrom<&str> for FileTy`: exact, case-sensitive match of the two tokens. */
  function TryFromStr(s: string): (r: Result<FileTy>)
    ensures r.Ok? <==> s == "audio" || s == "video"
    ensures r.Err? ==> r.error == UnknownFileTyStr
    ensures r.Ok? ==> (r.value == Audio <==> s == "audio")
  {
    if s == "audio" then Ok(Audio)
    else if s == "video" then Ok(Video)
    else Err(UnknownFileTyStr)
  }

  /** Every string that parses is the token of the variant it parses to. */
  lemma StrRoundTrip(s: string, ft: FileTy)
    requires TryFromStr(s) == Ok(ft)
    ensures AsStr(ft) == s
  {
  }

  /** The two variants have distinct tokens. */
  lemma AsStrInjective(a: FileTy, b: FileTy)
    requires AsStr(a) == AsStr(b)
    ensures a == b
  {
  }
}

=== FILE: handshake.dfy ===
/** Query-string parsing shared by both `manage_accept` functions (src/bin/server/main.rs and
    src/bin/cli-server/main.rs): the href is cut at `?`, the query is cut at `,`, and only
    the first two fields are looked at. A field yields a file type when it contains "ft=",
    and otherwise a key when it contains "key="; in both cases the value is the text between
    the first and the second occurrence of the marker (a substring, not a prefix, match). */
module Handshake {
  import opened Errors
  import opened FileTypes
  import opened StrSplit

  const QuestionMark: string := "?"
  const Comma: string := ","
  const FtMarker: string := "ft="
  const KeyMarker: string := "key="

  /** Text before the first `?`: the first thing `href.split('?')` yields. */
  function Route(href: string): (route: string)
    ensures route <= href
    ensures !Contains(route, QuestionMark)
  {
    BeforeFree(href, QuestionMark);
    Before(href, QuestionMark)
  }

  /** The second thing `href.split('?')` yields (the text between the first and the second
      `?`), or "" when there is no `?`. */
  function Query(href: string): (query: string)
    ensures !Contains(query, QuestionMark)
    ensures !Contains(href, QuestionMark) ==> query == ""
    ensures Contains(href, QuestionMark) ==> Route(href) + QuestionMark + query <= href
    ensures Contains(href, QuestionMark) ==>
      Route(href) + QuestionMark + query == href ||
      Route(href) + QuestionMark + query + QuestionMark <= href
  {
    match After(href, QuestionMark)
    case None => ""
    case Some(rest) =>
      BeforeFree(rest, QuestionMark);
      var query := Before(rest, QuestionMark);
      assert href == Route(href) + QuestionMark + rest;
      assert Route(href) + QuestionMark + query == href ||
             Route(href) + QuestionMark + query + QuestionMark <= href by {
        if After(rest, QuestionMark).Some? {
          var tail := After(rest, QuestionMark).value;
          assert href == Route(href) + QuestionMark + query + QuestionMark + tail;
        }
      }
      query
  }

  /** `query.split(',').take(2)`: the first field, and the second when there is a comma. */
  function Examined(query: string): (fields: seq<string>)
    ensures 1 <= |fields| <= 2
  {
    match After(query, Comma)
    case None => [Before(query, Comma)]
    case Some(rest) => [Before(query, Comma), Before(rest, Comma)]
  }

  /** The examined fields are the first two pieces of the query's full split (all of them
      when there are fewer). */
  lemma ExaminedTakesTwo(query: string)
    ensures Examined(query) == Split(query, Comma)[..|Examined(query)|]
    ensures |Examined(query)| < 2 ==> |Split(query, Comma)| == 1
  {
    match After(query, Comma)
    case None =>
    case Some(rest) =>
      assert Split(query, Comma) == [Before(query, Comma)] + Split(rest, Comma);
  }

  /** `by_comma.split("ft=").nth(1)`. */
  function FtValue(field: string): (r: Option<string>)
    ensures r.Some? <==> Contains(field, FtMarker)
  {
    SecondPiece(field, FtMarker)
  }

  /** The file type a field sets, if its "ft=" value parses. */
  function ParsedFt(field: string): (r: Option<FileTy>)
    ensures r.Some? ==> Contains(field, FtMarker) && AsStr(r.value) == FtValue(field).value
  {
    match FtValue(field)
    case None => None
    case Some(token) =>
      match TryFromStr(token)
      case Ok(ft) => Some(ft)
      case Err(_) => None
  }

  /** The key a field hands to the callback: only fields without "ft=" are asked for "key=". */
  function KeyValue(field: string): (r: Option<string>)
    ensures r.Some? <==> !Contains(field, FtMarker) && Contains(field, KeyMarker)
  {
    if FtValue(field).Some? then None else SecondPiece(field, KeyMarker)
  }

  /** What one examined query field contributes: the file type its "ft=" value parses to,
      and the key it hands to the callback. */
  datatype Field = Field(ft: Option<FileTy>, key: Option<string>)

  function Classify(text: string): (f: Field)
    ensures f.ft.Some? ==> f.key.None?
    ensures f.key.Some? <==> !Contains(text, FtMarker) && Contains(text, KeyMarker)
    ensures f.ft.Some? <==> Contains(text, FtMarker) && TryFromStr(FtValue(text).value).Ok?
  {
    Field(ParsedFt(text), KeyValue(text))
  }

  /** The examined fields of a query, classified (see `FieldsOfSplit`). */
  function Fields(query: string): seq<Field> {
    var texts := Examined(query);
    seq(|texts|, i requires 0 <= i < |texts| => Classify(texts[i]))
  }

  /** The fields the servers look at are the first two pieces of the query's full split by
      commas (just one when there is no comma), each classified. */
  lemma FieldsOfSplit(query: string)
    ensures |Fields(query)| == (if |Split(query, Comma)| < 2 then 1 else 2)
    ensures forall i :: 0 <= i < |Fields(query)| ==>
      Fields(query)[i] == Classify(Split(query, Comma)[i])
  {
    ExaminedTakesTwo(query);
  }

  /** Proof helper for the loop invariants of `ScanQuery`: the examined fields as the comma
      iterator yields them, the first piece of the query, then, when the query has a comma,
      the first piece of what follows it. */
  lemma ExaminedSteps(query: string)
    ensures Examined(query)[0] == Before(query, Comma)
    ensures |Examined(query)| == 2 <==> After(query, Comma).Some?
    ensures |Examined(query)| == 2 ==>
      Examined(query)[1] == Before(After(query, Comma).value, Comma)
  {
  }

  /** The body of both servers' field loop for one field `byComma`: if it has an "ft="
      value, that value is parsed as a file type (and the key is not looked at); otherwise
      a "key=" value, if any, is handed to the callback. Returns the parsed file type, the
      key handed over and the callback's verdict. */
  method ScanField(byComma: string, keyCb: string -> bool)
    returns (localFt: Option<FileTy>, keyFromReq: Option<string>, keyAccepted: bool)
    ensures Field(localFt, keyFromReq) == Classify(byComma)
    ensures localFt.Some? ==> Contains(byComma, FtMarker) && AsStr(localFt.value) == FtValue(byComma).value
    ensures keyFromReq.Some? <==> !Contains(byComma, FtMarker) && Contains(byComma, KeyMarker)
    ensures keyAccepted <==> keyFromReq.Some? && keyCb(keyFromReq.value)
  {
    localFt, keyFromReq, keyAccepted := None, None, false;
    var ftStr := SecondPiece(byComma, FtMarker);
    if ftStr.Some? {
      var parsed := TryFromStr(ftStr.value);
      if parsed.Ok? {
        localFt := Some(parsed.value);
      }
    } else {
      keyFromReq := SecondPiece(byComma, KeyMarker);
      if keyFromReq.Some? && keyCb(keyFromReq.value) {
        keyAccepted := true;
      }
    }
  }

  /** Some field yields a valid file type (`has_ft`). */
  ghost predicate HasValidFt(fields: seq<Field>) {
    exists j :: 0 <= j < |fields| && fields[j].ft.Some?
  }

  /** Some field's key is accepted by the callback (`has_key`). */
  ghost predicate HasAcceptedKey(fields: seq<Field>, keyCb: string -> bool) {
    exists j :: 0 <= j < |fields| && fields[j].key.Some? && keyCb(fields[j].key.value)
  }

  /** The file type of the last field that yields one. */
  function LastFt(fields: seq<Field>): Option<FileTy> {
    if fields == [] then None
    else if fields[|fields| - 1].ft.Some? then fields[|fields| - 1].ft
    else LastFt(fields[..|fields| - 1])
  }

  /** The arguments handed to the key callback, in call order. */
  function KeysOffered(fields: seq<Field>): seq<string> {
    if fields == [] then []
    else
      var k := fields[|fields| - 1].key;
      KeysOffered(fields[..|fields| - 1]) + (if k.Some? then [k.value] else [])
  }

  /** Proof helper for the loop invariants of `ScanQuery`: what examining one more field
      does to each of the loop's running values. */
  lemma AppendField(fields: seq<Field>, f: Field, keyCb: string -> bool)
    ensures HasValidFt(fields + [f]) <==> HasValidFt(fields) || f.ft.Some?
    ensures HasAcceptedKey(fields + [f], keyCb) <==> HasAcceptedKey(fields, keyCb) || (f.key.Some? && keyCb(f.key.value))
    ensures LastFt(fields + [f]) == if f.ft.Some? then f.ft else LastFt(fields)
    ensures KeysOffered(fields + [f]) == KeysOffered(fields) + (if f.key.Some? then [f.key.value] else [])
  {
    var all := fields + [f];
    assert all[..|fields|] == fields;
    assert forall j :: 0 <= j < |fields| ==> all[j] == fields[j];
    if HasValidFt(all) && !f.ft.Some? {
      var j :| 0 <= j < |all| && all[j].ft.Some?;
      assert fields[j].ft.Some?;
    }
    if HasAcceptedKey(all, keyCb) && !(f.key.Some? && keyCb(f.key.value)) {
      var j :| 0 <= j < |all| && all[j].key.Some? && keyCb(all[j].key.value);
      assert j < |fields|;
    }
    if f.ft.Some? {
      assert all[|fields|].ft.Some?;
    }
    if f.key.Some? && keyCb(f.key.value) {
      assert all[|fields|].key.Some?;
    }
  }

  /** `LastFt` picks the last field that yields a file type, and is absent exactly when no
      field yields one. */
  lemma {:induction false} LastFtIsLast(fields: seq<Field>)
    ensures LastFt(fields).None? <==> !HasValidFt(fields)
    ensures LastFt(fields).Some? ==>
      exists j :: 0 <= j < |fields| && fields[j].ft == LastFt(fields) &&
        forall k :: j < k < |fields| ==> fields[k].ft.None?
  {
    if fields != [] {
      var init := fields[..|fields| - 1];
      LastFtIsLast(init);
      assert forall j :: 0 <= j < |init| ==> init[j] == fields[j];
      if fields[|fields| - 1].ft.None? && LastFt(init).Some? {
        var j :| 0 <= j < |init| && init[j].ft == LastFt(init) &&
          forall k :: j < k < |init| ==> init[k].ft.None?;
        assert fields[j].ft == LastFt(fields);
      }
    }
  }

  /** With two fields that both yield a file type, the later one wins. */
  lemma LaterFtWins(first: Field, second: Field)
    requires first.ft.Some? && second.ft.Some?
    ensures LastFt([first, second]) == second.ft
  {
  }

  /** The callback is asked once per field at most, only with keys the fields carry, and
      the fields accept a key exactly when the callback accepts one of the keys offered. */
  lemma {:induction false} KeysOfferedSpec(fields: seq<Field>, keyCb: string -> bool)
    ensures |KeysOffered(fields)| <= |fields|
    ensures forall i :: 0 <= i < |KeysOffered(fields)| ==>
      exists j :: 0 <= j < |fields| && fields[j].key == Some(KeysOffered(fields)[i])
    ensures HasAcceptedKey(fields, keyCb) <==>
      exists i :: 0 <= i < |KeysOffered(fields)| && keyCb(KeysOffered(fields)[i])
  {
    if fields != [] {
      var init := fields[..|fields| - 1];
      var last := fields[|fields| - 1];
      KeysOfferedSpec(init, keyCb);
      assert forall j :: 0 <= j < |init| ==> init[j] == fields[j];
      var offered := KeysOffered(fields);
      assert offered[..|KeysOffered(init)|] == KeysOffered(init);
      if HasAcceptedKey(fields, keyCb) {
        var j :| 0 <= j < |fields| && fields[j].key.Some? && keyCb(fields[j].key.value);
        if j == |fields| - 1 {
          assert offered[|offered| - 1] == last.key.value;
        } else {
          assert HasAcceptedKey(init, keyCb);
          var i :| 0 <= i < |KeysOffered(init)| && keyCb(KeysOffered(init)[i]);
          assert offered[i] == KeysOffered(init)[i];
        }
      }
      if exists i :: 0 <= i < |offered| && keyCb(offered[i]) {
        var i :| 0 <= i < |offered| && keyCb(offered[i]);
        if i < |KeysOffered(init)| {
          assert KeysOffered(init)[i] == offered[i];
          assert HasAcceptedKey(init, keyCb);
        } else {
          assert last.key.Some? && offered[i] == last.key.value;
        }
      }
    }
  }

  /** The loop `for by_comma in after_question.split(',').take(2)` shared by both servers:
      `pending` is what the comma iterator has left. Returns whether a field set a file type
      (`has_ft`), the file type the last such field set, whether the callback accepted a
      key (`has_key`), and the keys handed to the callback in call order. */
  method ScanQuery(afterQuestion: string, keyCb: string -> bool)
    returns (hasFt: bool, lastFt: Option<FileTy>, hasKey: bool, offered: seq<string>)
    ensures hasFt <==> HasValidFt(Fields(afterQuestion))
    ensures lastFt == LastFt(Fields(afterQuestion))
    ensures hasKey <==> HasAcceptedKey(Fields(afterQuestion), keyCb)
    ensures offered == KeysOffered(Fields(afterQuestion))
    ensures |offered| <= 2
  {
    hasFt, lastFt, hasKey, offered := false, None, false, [];
    ghost var fields := Fields(afterQuestion);
    ghost var texts := Examined(afterQuestion);
    ExaminedSteps(afterQuestion);
    var pending := Some(afterQuestion);
    var taken := 0;
    ghost var seen: seq<Field> := [];
    while taken < 2 && pending.Some?
      invariant 0 <= taken <= |fields|
      invariant taken == 0 ==> pending == Some(afterQuestion)
      invariant taken == 1 ==> pending == After(afterQuestion, Comma)
      invariant pending.None? ==> taken == |fields|
      invariant taken < |fields| ==> pending.Some? && texts[taken] == Before(pending.value, Comma)
      invariant seen == fields[..taken]
      invariant hasFt <==> HasValidFt(seen)
      invariant lastFt == LastFt(seen)
      invariant hasKey <==> HasAcceptedKey(seen, keyCb)
      invariant offered == KeysOffered(seen)
    {
      var byComma := Before(pending.value, Comma);
      pending := After(pending.value, Comma);
      var localFt, keyFromReq, keyAccepted := ScanField(byComma, keyCb);
      ghost var f := fields[taken];
      assert f == Field(localFt, keyFromReq);
      AppendField(seen, f, keyCb);
      if localFt.Some? {
        hasFt := true;
        lastFt := localFt;
      }
      if keyFromReq.Some? {
        offered := offered + [keyFromReq.value];
      }
      if keyAccepted {
        hasKey := true;
      }
      assert fields[..taken + 1] == seen + [f];
      seen := seen + [f];
      taken := taken + 1;
    }
    assert fields[..taken] == fields;
    KeysOfferedSpec(fields, keyCb);
  }

  /** Every key handed to the callback is the "key=" value of an examined field that has no
      "ft=": a file-type field never reaches the callback. */
  lemma OfferedFromKeyFields(query: string)
    ensures forall i :: 0 <= i < |KeysOffered(Fields(query))| ==>
      exists j :: 0 <= j < |Examined(query)| && !Contains(Examined(query)[j], FtMarker) &&
        SecondPiece(Examined(query)[j], KeyMarker) == Some(KeysOffered(Fields(query))[i])
  {
    var fields, offered := Fields(query), KeysOffered(Fields(query));
    KeysOfferedSpec(fields, (k: string) => true);
    forall i | 0 <= i < |offered|
      ensures exists j :: 0 <= j < |Examined(query)| && !Contains(Examined(query)[j], FtMarker)
                          && SecondPiece(Examined(query)[j], KeyMarker) == Some(offered[i])
    {
      var j :| 0 <= j < |fields| && fields[j].key == Some(offered[i]);
      assert fields[j] == Classify(Examined(query)[j]);
    }
  }

  /** Only the text between the first and the second `?` is the query. */
  lemma QueryStopsAtSecondMark(route: string, query: string, tail: string)
    requires !Contains(route, QuestionMark) && !Contains(query, QuestionMark)
    ensures Route(route + QuestionMark + query + QuestionMark + tail) == route
    ensures Query(route + QuestionMark + query + QuestionMark + tail) == query
  {
    var rest := query + QuestionMark + tail;
    assert route + QuestionMark + query + QuestionMark + tail == route + QuestionMark + rest;
    CutAt(route, rest, QuestionMark);
    CutAt(query, tail, QuestionMark);
  }

  /** An href with a single `?` is cut there into route and query. */
  lemma SingleMark(route: string, query: string)
    requires !Contains(route, QuestionMark) && !Contains(query, QuestionMark)
    ensures Route(route + QuestionMark + query) == route
    ensures Query(route + QuestionMark + query) == query
  {
    CutAt(route, query, QuestionMark);
    NoCut(query, QuestionMark);
  }

  /** An href with one `?`, between a route and a query that hold none, is cut there. */
  lemma RouteAndQuery(route: string, query: string)
    requires '?' !in route && '?' !in query
    ensures Route(route + QuestionMark + query) == route
    ensures Query(route + QuestionMark + query) == query
  {
    FirstCharAbsent(route, QuestionMark);
    FirstCharAbsent(query, QuestionMark);
    SingleMark(route, query);
  }

  /** Fields after the second are never examined. */
  lemma ExaminedFirstTwo(first: string, second: string, rest: string)
    requires !Contains(first, Comma) && !Contains(second, Comma)
    ensures Examined(first + Comma + second + Comma + rest) == [first, second]
  {
    var tail := second + Comma + rest;
    assert first + Comma + second + Comma + rest == first + Comma + tail;
    CutAt(first, tail, Comma);
    CutAt(second, rest, Comma);
  }

  /** A field that is exactly "ft=" and a token sets that token's file type. */
  lemma ClassifyFtField(token: string)
    requires !Contains(token, FtMarker)
    ensures Classify(FtMarker + token) == Field(TryFromStr(token).ToOption(), None)
  {
    FirstCharAbsent("", FtMarker);
    assert FtMarker + token == "" + FtMarker + token;
    CutAt("", token, FtMarker);
    NoCut(token, FtMarker);
  }

  /** A field that is exactly "key=" and a key offers that key, unless it contains "ft=". */
  lemma ClassifyKeyField(key: string)
    requires !Contains(key, KeyMarker)
    requires !Contains(KeyMarker + key, FtMarker)
    ensures Classify(KeyMarker + key) == Field(None, Some(key))
  {
    FirstCharAbsent("", KeyMarker);
    assert KeyMarker + key == "" + KeyMarker + key;
    CutAt("", key, KeyMarker);
    NoCut(key, KeyMarker);
  }

  /** A query of an "ft=" field followed by a "key=" field (the shape of both binaries'
      tests): the first field sets the token's file type and the second offers the key. */
  lemma TwoFields(token: string, key: string)
    requires ',' !in token && ',' !in key
    requires !Contains(token, FtMarker) && !Contains(key, KeyMarker) && !Contains(KeyMarker + key, FtMarker)
    ensures Fields(FtMarker + token + Comma + KeyMarker + key)
         == [Field(TryFromStr(token).ToOption(), None), Field(None, Some(key))]
  {
    var first, second := FtMarker + token, KeyMarker + key;
    assert FtMarker + token + Comma + KeyMarker + key == first + Comma + second;
    FirstCharAbsent(first, Comma);
    FirstCharAbsent(second, Comma);
    CutAt(first, second, Comma);
    NoCut(second, Comma);
    ClassifyFtField(token);
    ClassifyKeyField(key);
  }

  /** The tests' query sets the audio type in its first field and offers "abc" in its second. */
  lemma TestQuery(query: string)
    requires query == "ft=audio,key=abc"
    ensures Fields(query) == [Field(Some(Audio), None), Field(None, Some("abc"))]
  {
    assert query == FtMarker + "audio" + Comma + KeyMarker + "abc";
    FirstCharAbsent("audio", FtMarker);
    FirstCharAbsent("abc", KeyMarker);
    FirstCharAbsent(KeyMarker + "abc", FtMarker);
    TwoFields("audio", "abc");
  }

  /** What the loop reports for the tests' query: a file type was set, it is `Audio`, the
      callback is asked once, about "abc", and its verdict decides `has_key`. */
  lemma TestQueryScan(query: string, keyCb: string -> bool)
    requires query == "ft=audio,key=abc"
    ensures HasValidFt(Fields(query)) && LastFt(Fields(query)) == Some(Audio)
    ensures HasAcceptedKey(Fields(query), keyCb) <==> keyCb("abc")
    ensures KeysOffered(Fields(query)) == ["abc"]
  {
    TestQuery(query);
    var first, second := Field(Some(Audio), None), Field(None, Some("abc"));
    AppendField([], first, keyCb);
    assert [] + [first] == [first];
    AppendField([first], second, keyCb);
    assert [first] + [second] == Fields(query);
  }
}

=== FILE: str_split.dfy ===
/** The part of Rust's `str::split` that the handshake parsers rely on. A split iterator over
    a non-empty pattern yields the text up to the leftmost occurrence of the pattern and then
    continues after that occurrence; once no occurrence is left it yields the rest and is
    exhausted. `Before` and `After` are one step of that iterator, `Split` is the list of
    everything it yields, and `Join` glues that list back together. */
module StrSplit {
  import opened Errors

  /** `pat` occurs in `s` starting at index `k`. */
  ghost predicate MatchAt(s: string, pat: string, k: int) {
    0 <= k && k + |pat| <= |s| && s[k..k + |pat|] == pat
  }

  /** When `pat` does not start `s`, its occurrences in `s` are those in `s[1..]`, shifted by one. */
  lemma MatchShift(s: string, pat: string)
    requires |s| >= |pat| > 0
    requires s[..|pat|] != pat
    ensures forall k :: MatchAt(s, pat, k) ==> k >= 1 && MatchAt(s[1..], pat, k - 1)
    ensures forall k :: MatchAt(s[1..], pat, k) ==> MatchAt(s, pat, k + 1)
  {
    forall k | MatchAt(s, pat, k) ensures k >= 1 && MatchAt(s[1..], pat, k - 1) {
      assert s[1..][k - 1..k - 1 + |pat|] == s[k..k + |pat|];
    }
    forall k | MatchAt(s[1..], pat, k) ensures MatchAt(s, pat, k + 1) {
      assert s[1..][k..k + |pat|] == s[k + 1..k + 1 + |pat|];
    }
  }

  /** Index of the leftmost occurrence of `pat` in `s`, if any (see `FindSpec`). */
  function Find(s: string, pat: string): (r: Option<nat>)
    requires pat != []
    ensures r.Some? ==> r.value + |pat| <= |s|
    decreases |s|
  {
    if |s| < |pat| then None
    else if s[..|pat|] == pat then Some(0)
    else
      match Find(s[1..], pat)
      case None => None
      case Some(j) => Some(j + 1)
  }

  /** `Find` returns an occurrence, and no occurrence lies before it; `None` means there is none. */
  lemma {:induction false} FindSpec(s: string, pat: string)
    requires pat != []
    ensures Find(s, pat).Some? ==> MatchAt(s, pat, Find(s, pat).value)
    ensures Find(s, pat).Some? ==> forall k :: 0 <= k < Find(s, pat).value ==> !MatchAt(s, pat, k)
    ensures Find(s, pat).None? ==> forall k :: !MatchAt(s, pat, k)
    decreases |s|
  {
    if |s| < |pat| {
    } else if s[..|pat|] == pat {
      assert MatchAt(s, pat, 0);
    } else {
      FindSpec(s[1..], pat);
      MatchShift(s, pat);
    }
  }

  /** `s.contains(pat)`. */
  function Contains(s: string, pat: string): bool
    requires pat != []
  {
    Find(s, pat).Some?
  }

  /** The text the split iterator yields next: everything before the leftmost occurrence,
      or all of `s` when there is none. */
  function Before(s: string, pat: string): (piece: string)
    requires pat != []
    ensures piece <= s
    ensures piece == s <==> !Contains(s, pat)
  {
    match Find(s, pat)
    case None => s
    case Some(j) => s[..j]
  }

  /** Where the split iterator continues: after the leftmost occurrence; `None` when there is
      no occurrence, so that the iterator is exhausted. */
  function After(s: string, pat: string): (rest: Option<string>)
    requires pat != []
    ensures rest.Some? <==> Contains(s, pat)
    ensures rest.Some? ==> s == Before(s, pat) + pat + rest.value
  {
    FindSpec(s, pat);
    match Find(s, pat)
    case None => None
    case Some(j) => Some(s[j + |pat|..])
  }

  /** Every piece `s.split(pat)` yields, in order. */
  function Split(s: string, pat: string): (pieces: seq<string>)
    requires pat != []
    ensures |pieces| >= 1 && pieces[0] == Before(s, pat)
    decreases |s|
  {
    match After(s, pat)
    case None => [s]
    case Some(rest) => [Before(s, pat)] + Split(rest, pat)
  }

  /** The inverse of `Split`: the pieces glued back with the pattern between them. */
  function Join(pieces: seq<string>, pat: string): string {
    if |pieces| == 0 then ""
    else if |pieces| == 1 then pieces[0]
    else pieces[0] + pat + Join(pieces[1..], pat)
  }

  /** `s.split(pat).nth(1)`: the second piece, present exactly when `pat` occurs in `s`. */
  function SecondPiece(s: string, pat: string): (r: Option<string>)
    requires pat != []
    ensures r.Some? <==> Contains(s, pat)
  {
    match After(s, pat)
    case None => None
    case Some(rest) => Some(Before(rest, pat))
  }

  /** The iterator view agrees with the list view: `SecondPiece` is the list's second entry. */
  lemma SecondPieceOfSplit(s: string, pat: string)
    requires pat != []
    ensures |Split(s, pat)| > 1 <==> Contains(s, pat)
    ensures |Split(s, pat)| > 1 ==> SecondPiece(s, pat) == Some(Split(s, pat)[1])
  {
  }

  /** Gluing the pieces back together gives the original string. */
  lemma {:induction false} SplitJoin(s: string, pat: string)
    requires pat != []
    ensures Join(Split(s, pat), pat) == s
    decreases |s|
  {
    var r := Find(s, pat);
    if r.Some? {
      var j := r.value;
      var tail := s[j + |pat|..];
      var rest := Split(tail, pat);
      FindSpec(s, pat);
      SplitJoin(tail, pat);
      var pieces := Split(s, pat);
      assert pieces == [s[..j]] + rest;
      assert pieces[1..] == rest;
      assert Join(pieces, pat) == s[..j] + pat + Join(rest, pat);
      assert s[j..j + |pat|] == pat;
      assert s == s[..j] + s[j..j + |pat|] + tail;
    }
  }

  lemma PrefixMatch(s: string, pat: string, j: nat, k: int)
    requires j <= |s|
    requires MatchAt(s[..j], pat, k)
    ensures MatchAt(s, pat, k)
  {
    assert s[..j][k..k + |pat|] == s[k..k + |pat|];
  }

  /** The text before the leftmost occurrence does not contain the pattern. */
  lemma BeforeFree(s: string, pat: string)
    requires pat != []
    ensures !Contains(Before(s, pat), pat)
  {
    FindSpec(s, pat);
    var b := Before(s, pat);
    FindSpec(b, pat);
    if Find(s, pat).Some? && Find(b, pat).Some? {
      PrefixMatch(s, pat, Find(s, pat).value, Find(b, pat).value);
    }
  }

  /** No piece contains the pattern. */
  lemma {:induction false} SplitPiecesFree(s: string, pat: string)
    requires pat != []
    ensures forall i :: 0 <= i < |Split(s, pat)| ==> !Contains(Split(s, pat)[i], pat)
    decreases |s|
  {
    BeforeFree(s, pat);
    match After(s, pat)
    case None =>
    case Some(rest) =>
      SplitPiecesFree(rest, pat);
  }

  /** The last character of the pattern does not occur earlier in it, so no occurrence can
      start inside a text that lacks the pattern and end inside a copy of the pattern that
      follows it. True of "?", ",", "ft=" and "key=". */
  ghost predicate LastCharUnique(pat: string) {
    pat != [] && pat[|pat| - 1] !in pat[..|pat| - 1]
  }

  /** No occurrence starts inside a text that lacks the pattern when the pattern follows it. */
  lemma NoEarlyMatch(a: string, b: string, pat: string, k: int)
    requires LastCharUnique(pat)
    requires !Contains(a, pat)
    requires 0 <= k < |a|
    ensures !MatchAt(a + pat + b, pat, k)
  {
    FindSpec(a, pat);
    var s := a + pat + b;
    if k + |pat| <= |a| {
      assert s[k..k + |pat|] == a[k..k + |pat|];
      assert !MatchAt(a, pat, k);
    } else {
      var m := k + |pat| - 1 - |a|;
      assert s[k + |pat| - 1] == pat[m];
      assert pat[..|pat| - 1][m] == pat[m];
      assert s[k..k + |pat|][|pat| - 1] == s[k + |pat| - 1];
    }
  }

  lemma FirstMatchAfter(a: string, b: string, pat: string)
    requires LastCharUnique(pat)
    requires !Contains(a, pat)
    ensures Find(a + pat + b, pat) == Some(|a|)
  {
    var s := a + pat + b;
    assert s[|a|..|a| + |pat|] == pat;
    assert MatchAt(s, pat, |a|);
    forall k | 0 <= k < |a| ensures !MatchAt(s, pat, k) {
      NoEarlyMatch(a, b, pat, k);
    }
    FindSpec(s, pat);
  }

  /** Text without the pattern, then the pattern: the iterator yields that text and goes on
      with what follows the pattern. */
  lemma CutAt(a: string, b: string, pat: string)
    requires LastCharUnique(pat)
    requires !Contains(a, pat)
    ensures Before(a + pat + b, pat) == a
    ensures After(a + pat + b, pat) == Some(b)
  {
    var s := a + pat + b;
    FirstMatchAfter(a, b, pat);
    assert s[..|a|] == a;
    assert s[|a| + |pat|..] == b;
  }

  /** A text without the pattern is yielded whole, and the iterator is then exhausted. */
  lemma NoCut(a: string, pat: string)
    requires pat != []
    requires !Contains(a, pat)
    ensures Before(a, pat) == a && After(a, pat) == None
    ensures Split(a, pat) == [a]
  {
  }

  /** A text that lacks the pattern's first character lacks the pattern. */
  lemma FirstCharAbsent(s: string, pat: string)
    requires pat != []
    requires pat[0] !in s
    ensures !Contains(s, pat)
  {
    FindSpec(s, pat);
  }

  /** `nth(1)` is the text between the first and the second occurrence. */
  lemma SecondPieceBetween(a: string, v: string, b: string, pat: string)
    requires LastCharUnique(pat)
    requires !Contains(a, pat) && !Contains(v, pat)
    ensures SecondPiece(a + pat + v + pat + b, pat) == Some(v)
  {
    var tail := v + pat + b;
    assert a + pat + v + pat + b == a + pat + tail;
    CutAt(a, tail, pat);
    assert Before(a + pat + tail, pat) == a && After(a + pat + tail, pat) == Some(tail);
    CutAt(v, b, pat);
    assert Before(tail, pat) == v;
  }
}

=== FILE: tls_server.dfy ===
/** `manage_accept` of the TLS server (src/bin/server/main.rs): one route, `/store`, and the
    handshake is accepted only when the query names a valid file type and an accepted key. */
module TlsServer {
  import opened Errors
  import opened FileTypes
  import opened StrSplit
  import opened Handshake

  /** The handlers the TLS server dispatches to. */
  datatype Endpoint = Store

  const StoreRoute: string := "/store"

  /** Decides a handshake from the request's href. `endpoint` and `ft` are the caller's
      slots, passed in and handed back (possibly updated) as `endpoint'` and `ft'`;
      `keyCb` is the key callback, and `offered` lists the arguments it was called with. */
  method ManageAccept(endpoint: Endpoint, ft: FileTy, href: string, keyCb: string -> bool)
    returns (accepted: bool, endpoint': Endpoint, ft': FileTy, offered: seq<string>)
    ensures Route(href) != StoreRoute ==>
      !accepted && endpoint' == endpoint && ft' == ft && offered == []
    ensures Route(href) == StoreRoute ==>
      endpoint' == Store && ft' == LastFt(Fields(Query(href))).GetOr(ft) && offered == KeysOffered(Fields(Query(href)))
    ensures accepted <==>
      Route(href) == StoreRoute && HasValidFt(Fields(Query(href))) && HasAcceptedKey(Fields(Query(href)), keyCb)
  {
    var beforeQuestion := Before(href, QuestionMark);
    var afterQuestion := match After(href, QuestionMark)
      case None => ""
      case Some(rest) => Before(rest, QuestionMark);
    if beforeQuestion == StoreRoute {
      endpoint' := Store;
    } else {
      return false, endpoint, ft, [];
    }

    var hasFt, lastFt, hasKey;
    hasFt, lastFt, hasKey, offered := ScanQuery(afterQuestion, keyCb);
    ft' := lastFt.GetOr(ft);
    accepted := hasFt && hasKey;
  }

  /** The handshake of the binary's test: `/store?ft=audio,key=abc` with a key callback that accepts
      exactly "abc" is accepted, selects `Store`, sets the audio type and asks the callback once. */
  method StoreExample() returns (accepted: bool, endpoint: Endpoint, ft: FileTy, offered: seq<string>)
    ensures accepted && endpoint == Store && ft == Audio && offered == ["abc"]
  {
    var query := "ft=audio,key=abc";
    var href := StoreRoute + QuestionMark + query;
    assert Route(href) == StoreRoute && Query(href) == query by {
      RouteAndQuery(StoreRoute, query);
    }
    var keyCb := (k: string) => k == "abc";
    TestQueryScan(query, keyCb);
    accepted, endpoint, ft, offered := ManageAccept(Store, Video, href, keyCb);
  }
}
